=== FILE: README.md ===
# Netflix user enrichment, modelled in Dafny

This project models `enrich_netflix_data`, the record validator and
classifier of a small data-cleaning script for a subscription service's user
export. The function takes the rows of the export in order. Each row is a map
from column name to cell text. Every row goes through three checks, in a
fixed order, and processing of a row stops at the first check it fails:

1. **Mandatory fields.** `User_ID`, `Subscription_Type`, `Watch_Time_Hours`
   and `Last_Login` must all be present and non-empty. Otherwise the reason
   is `Missing: ` followed by the missing names, joined with `, `, in that
   order.
2. **Plan.** `Subscription_Type` must be `Premium` (threshold 100 hours),
   `Standard` (50) or `Basic` (25). Otherwise the reason is
   `Invalid Subscription type`.
3. **Parsing.** `Watch_Time_Hours` must be a number and `Last_Login` a
   `YYYY-MM-DD` date. Otherwise the reason is `Invalid data format`.

A row that passes all three becomes an enriched record with three fields:

- `User_ID`: the row's user id.
- `Engagement_Status`: `Under-utilising` when the watch time is strictly below
  the plan threshold, otherwise `Active`.
- `Days_Inactive`: the number of whole days from the login date to the fixed
  reference date 2025-03-25.

A row that fails goes into the invalid-users map. Its key is the user id, or
`UnknownID` when the id is missing. A later failure under the same key
overwrites the earlier reason.

Layout:

- `wrappers.dfy`, module `Wrappers`: the `Option` type.
- `numerals.dfy`, module `Numerals`: digit strings and the watch-time number
  parse.
- `calendar.dfy`, module `Calendar`: Gregorian dates, the ordinal day count
  of Python's `datetime.date`, and the `%Y-%m-%d` text form.
- `enrichment.dfy`, module `Enrichment`: the per-row checks (`Classify`), the
  report over a whole input (`Enrich`), and two methods. `CheckUser` is the
  loop body with its early exits, proved to decide as `Classify` does.
  `EnrichNetflixData` is the loop, proved to compute `Enrich`.
- `enrichment_lemmas.dfy`, module `EnrichmentLemmas`: the properties of the
  above and the worked examples.

The source only prints the invalid map. The model returns it, as the second
out-parameter of `EnrichNetflixData` and as the `invalid` field of `Report`,
so that properties of rejected rows can be stated. Input and output are
otherwise as in the source: the rows are `seq<map<string, string>>`, and an
enriched record is a datatype whose three fields are the three output
columns.

`Days_Inactive` is negative for a login after the reference date
(`DaysInactiveSign`).

## Model

| member | source | states |
|---|---|---|
| Enrichment.EnrichNetflixData | Automation.py:25-70 | The loop over the rows computes exactly the report `Enrich` defines. Empty input gives an empty list and an empty invalid map. There are never more enriched records than input rows. |
| Enrichment.CheckUser | Automation.py:39-66 | The loop body for one row, which stops at the first failed check, reaches the same verdict as the three checks of `Classify` applied in order. |
| Enrichment.Enrich | Automation.py:25-66 | The report of a whole input has at most one enriched record per row. An empty input gives an empty list and an empty map. |
| Enrichment.Collect | Automation.py:37-66 | Folds the verdicts first to last. Its step `Record` is the dict assignment of a rejection (Automation.py:42, 48, 59) or the list append of a record (Automation.py:62-66). The result never holds more records than there are verdicts. |
| Enrichment.Classify | Automation.py:39-60 | A rejected row is filed under its key, with the missing-field reason, the invalid-plan reason or the format reason. An accepted row was complete and keeps its user id. |
| Enrichment.IdKey | Automation.py:39 | The key is the row's id whenever that id is present and non-empty, and `UnknownID` otherwise. It is never empty. |
| Enrichment.PlanThreshold | Automation.py:46 | A plan has a non-zero threshold exactly when it is `Premium`, `Standard` or `Basic`. No threshold exceeds 100. |
| Enrichment.Engagement | Automation.py:54 | The status text is `Under-utilising` exactly when the watch time is below the threshold, and `Active` exactly when it is at or above it. The text comes from `StatusText`, the column values written at Automation.py:54 and 64. |
| EnrichmentLemmas.EngagementMonotone | Automation.py:54 | More watch time never turns `Active` into `Under-utilising`, and a lower threshold never does either. |
| Enrichment.Join | Automation.py:42 | `", ".join`: an empty list gives the empty text. Otherwise the first part leads, and the length is the parts' total plus one separator fewer than there are parts. `MissingReason` is the f-string at Automation.py:42, `Missing: ` followed by this join. `RejectionKey`, `MissingLoginExample` and `AllMissingExample` pin down its texts. |
| EnrichmentLemmas.JoinAppend | Automation.py:42 | Adding one more part at the end appends one separator and that part. |
| Enrichment.MissingFrom | Automation.py:40 | A field is listed as missing exactly when the row lacks it or holds the empty string there. |
| Enrichment.MissingFields | Automation.py:34-41 | No mandatory field is missing exactly when all four are present and non-empty. |
| EnrichmentLemmas.MissingFromInOrder | Automation.py:40 | The missing names keep the order of the field list. |
| EnrichmentLemmas.MissingFieldsCharacterised | Automation.py:34-42 | Any list of exactly the absent-or-empty mandatory fields, given in `User_ID`, `Subscription_Type`, `Watch_Time_Hours`, `Last_Login` order, equals the list the check produces. |
| EnrichmentLemmas.MissingCheckFirst | Automation.py:40-43 | A row is rejected with `Missing: ` plus its joined missing fields if and only if it lacks a mandatory field. No later check applies to such a row. |
| EnrichmentLemmas.PlanThresholds | Automation.py:35 | Only `Premium`, `Standard` and `Basic` have a non-zero threshold, and those thresholds are 100, 50 and 25. |
| EnrichmentLemmas.PlanCheckSecond | Automation.py:46-49 | A row is rejected with `Invalid Subscription type` if and only if it is complete and its plan is not one of the three known plans. This holds whatever its watch time and login say. |
| EnrichmentLemmas.FormatCheckThird | Automation.py:52-60 | A row is rejected with `Invalid data format` if and only if it is complete, its plan is known, and its watch time or its login fails to parse. |
| EnrichmentLemmas.AcceptedExactly | Automation.py:39-66 | A row is enriched if and only if it is complete, its plan is known, and both its watch time and its login parse. |
| EnrichmentLemmas.AcceptedRecord | Automation.py:52-66 | An enriched record keeps the row's `User_ID`. Its status column reads `Under-utilising` exactly when the watch time is strictly below the plan threshold, and `Active` otherwise. Its day count runs from the login to the reference date. |
| EnrichmentLemmas.ThresholdIsActive | Automation.py:54 | Watch time equal to the threshold is `Active`, and one hour below it is `Under-utilising`. |
| EnrichmentLemmas.ReasonsDistinct | Automation.py:42-59 | The three reason texts never coincide, so a reason identifies the check that failed. |
| EnrichmentLemmas.RejectionKey | Automation.py:39 | A rejection is keyed by the user id, or by `UnknownID` when the id is absent or empty. A row without an id is always rejected, and its reason begins `Missing: User_ID`. |
| EnrichmentLemmas.DaysInactiveExamples | Automation.py:31-57 | Against 2025-03-25, a login on 2025-01-01 is 83 days inactive, 2025-03-20 is 5, and 2025-04-01 is -7. |
| EnrichmentLemmas.DaysInactiveSign | Automation.py:56-57 | The day count is negative exactly for logins after the reference date, and zero exactly on it. |
| EnrichmentLemmas.EnrichedInInputOrder | Automation.py:37-66 | Enriched records are those of the accepted rows, one per accepted row, in increasing input position. Every accepted row is represented. |
| EnrichmentLemmas.InvalidKeys | Automation.py:39-59 | Every rejected row leaves its key in the invalid map. Every entry of the map is the key and reason of some rejected row. |
| EnrichmentLemmas.LastRejectionWins | Automation.py:42-59 | The entry under a key holds the reason of the last row rejected under that key. |
| EnrichmentLemmas.InvalidSizeBound | Automation.py:37-60 | The invalid map has at most as many entries as there are rejected rows. |
| EnrichmentLemmas.EnrichAppend | Automation.py:37-66 | Enriching two batches separately gives the same result as enriching them together: concatenate the lists and merge the maps, the later batch winning. |
| EnrichmentLemmas.PremiumActiveExample | Automation.py:46-66 | Premium, 150 hours, last login 2025-01-01 gives `Active` and 83 days. |
| EnrichmentLemmas.BasicUnderUtilisingExample | Automation.py:46-66 | Basic, 10 hours, last login 2025-03-20 gives `Under-utilising` and 5 days. |
| EnrichmentLemmas.MissingLoginExample | Automation.py:40-43 | A row without `Last_Login` is rejected with `Missing: Last_Login`. |
| EnrichmentLemmas.AllMissingExample | Automation.py:39-43 | An empty row is rejected under `UnknownID`, with all four names listed in order. |
| EnrichmentLemmas.UnknownPlanExample | Automation.py:46-49 | Plan `Gold` is rejected as an invalid plan, even though its watch time and login would not parse either. |
| EnrichmentLemmas.BadWatchTimeExample | Automation.py:52-60 | Watch time `abc` is rejected as a format error. |
| EnrichmentLemmas.IdlessRowExample | Automation.py:39-43 | A row whose id is the empty string is rejected under `UnknownID` with `Missing: User_ID`, even though its plan is unknown. |
| EnrichmentLemmas.UnknownIdOverwriteExample | Automation.py:39-48 | Two id-less rows leave a single `UnknownID` entry, which holds the second row's reason. |
| Calendar.DaysBeforeYearCountsYears | Automation.py:56-57 | The closed-form count of days before a year equals the sum of the lengths of all earlier years, with Gregorian leap years. |
| Calendar.DaysBeforeMonthCountsMonths | Automation.py:56-57 | The cumulative month table equals the sum of the lengths of the earlier months of that year. |
| Calendar.OrdinalNextDay | Automation.py:56-57 | The day after a valid date is valid, and its day number is exactly one more. |
| Calendar.OrdinalIncreasing | Automation.py:56-57 | A date earlier in the calendar has a strictly smaller day number. |
| Calendar.Ordinal | Automation.py:57 | A date's day number lies within the span of its own year. |
| Calendar.OrdinalOrder | Automation.py:57 | Day numbers are smaller exactly for earlier dates, and equal only for the same date. |
| Calendar.DaysBetween | Automation.py:57 | `(later - earlier).days` is positive, zero or negative exactly when the first date is before, equal to, or after the second. |
| Calendar.ParseIsoDate | Automation.py:56 | `strptime` with `%Y-%m-%d`: an accepted text always names a valid calendar date. |
| Calendar.ParseFormatIsoDate | Automation.py:56 | Every valid date, written as zero-padded `YYYY-MM-DD`, parses back to itself. |
| Calendar.FormatParseIsoDate | Automation.py:56 | Every accepted date text names a valid date and is exactly that date's zero-padded form. |
| Numerals.ParseDecimal | Automation.py:53 | `float()` of the watch-time text: accepted text is never empty, and it begins with a sign, a digit or a point. By `ParseSignedPoint`, `ParseSignedWhole` and `ParseDecimalPlain`, the accepted texts are exactly the plain decimals. |
| Numerals.ParseDecimalPlain | Automation.py:53-59 | Every accepted text is a plain decimal: no sign, `+` or `-`, then digits, optionally a point and digits, with at least one digit. Its value is the signed point value. So `1-2`, `+-1`, `1..2`, `+` and `.` are all format errors. |
| Numerals.ParseDecimalSign | Automation.py:53 | An accepted value is negative only when the text begins with `-`, and text beginning with `-` never reads as positive. |
| Numerals.ParseFormatNat | Automation.py:53 | A natural number written in decimal reads back as itself. |
| Numerals.ParseNegativeNat | Automation.py:53 | A minus sign in front of a decimal natural reads back as its negation. |
| Numerals.ParseFixedPoint | Automation.py:53 | Text `a.b` with `k` fraction digits reads back as a + b / 10^k. |
| Numerals.FixedPointSplit | Automation.py:53 | Any digit groups around a point, the whole part non-empty and leading zeros allowed, read as whole value + fraction value / 10^(fraction digits). |
| Numerals.ParseSignedPoint | Automation.py:53 | Every text made of no sign, `+` or `-`, then digits, a point and digits, with at least one digit, is accepted. Its value is the point value, negated under `-`. This covers `-1.5`, `.5`, `+.5`, `5.` and `007.0`. |
| Numerals.ParseSignedWhole | Automation.py:53 | Every text made of no sign, `+` or `-`, then one or more digits, is accepted as the digits' value, negated under `-`. This covers `+10` and `010`. |
| Numerals.ParseDecimalAlphabet | Automation.py:53 | Accepted watch-time text holds only digits, `.`, `+` and `-`. Anything with another character is a format error. |

## Left out

- `load_netflix_data` (Automation.py:4-16) is file input through the CSV
  reader, a library outside this model. Its result is taken as the
  `seq<map<string, string>>` argument. A short row whose missing cells the
  reader fills with `None` is modelled as a row without those keys. Both
  count as missing.
- `export_to_csv` (Automation.py:72-85) is file output through the CSV
  writer, with its `IOError` handling. It is not modelled. The shape of its
  rows is the `Enriched` datatype.
- The top-level script lines (Automation.py:87-89) and the closing note about
  future AI suggestions (Automation.py:91-95) are not modelled.
- Every `print` is left out (Automation.py:12, 15, 68, 74, 83, 85). The
  invalid map printed at line 68 is returned instead.
- Numerals.ParseDecimal: only a plain decimal is accepted: an optional sign,
  digits, and an optional point with digits, with at least one digit in all.
  Python's `float()` also accepts surrounding whitespace, exponents,
  underscores, `inf`, `nan` and non-ASCII digits. The model rejects those as a
  format error.
- Numerals.ParseDecimal: the value is an exact rational, not an IEEE double.
  The model ignores rounding, so text that rounds up to the threshold (for
  example `99.99999999999999999` under Premium) is `Under-utilising` in the
  model but `Active` in Python. The NaN comparison is not modelled.
- Calendar.ParseIsoDate: only zero-padded `YYYY-MM-DD` is accepted.
  `strptime` also accepts a single-digit month or day, a space-padded day,
  and non-ASCII digits. Years 1 through 9999 and real calendar days are
  required, as in Python's `date`.
- The reference date is the fixed constant `Today` (2025-03-25), as in the
  source. The clock read that the source comments out is not modelled.

=== FILE: calendar.dfy ===
/**
 * Proleptic Gregorian dates as Python's `datetime.date` represents them:
 * years 1 through 9999, the day count of `date.toordinal` (0001-01-01 is
 * day 1), and the zero-padded `%Y-%m-%d` text form.
 */
module Calendar {
  import opened Wrappers
  import opened Numerals

  const MinYear := 1
  const MaxYear := 9999

  datatype Date = Date(year: int, month: int, day: int)

  predicate IsLeapYear(y: int) {
    y % 4 == 0 && (y % 100 != 0 || y % 400 == 0)
  }

  function DaysInYear(y: int): int {
    if IsLeapYear(y) then 366 else 365
  }

  function DaysInMonth(y: int, m: int): int
    requires 1 <= m <= 12
  {
    if m == 2 then (if IsLeapYear(y) then 29 else 28)
    else if m == 4 || m == 6 || m == 9 || m == 11 then 30
    else 31
  }

  predicate IsValid(d: Date) {
    && MinYear <= d.year <= MaxYear
    && 1 <= d.month <= 12
    && 1 <= d.day <= DaysInMonth(d.year, d.month)
  }

  /** Days in the years before `y`, in the closed form Python's `datetime` uses. */
  function DaysBeforeYear(y: int): int
    requires y >= 1
  {
    var p := y - 1;
    p * 365 + p / 4 - p / 100 + p / 400
  }

  /** Days in the months of `y` before `m`, from the cumulative month table. */
  function DaysBeforeMonth(y: int, m: int): int
    requires 1 <= m <= 12
  {
    [0, 31, 59, 90, 120, 151, 181, 212, 243, 273, 304, 334][m - 1]
      + (if m > 2 && IsLeapYear(y) then 1 else 0)
  }

  /** The day number of `d`, counting 0001-01-01 as day 1; it falls within the span of `d`'s year. */
  function Ordinal(d: Date): (n: int)
    requires IsValid(d)
    ensures DaysBeforeYear(d.year) < n <= DaysBeforeYear(d.year) + DaysInYear(d.year)
  {
    MonthFitsInYear(d.year, d.month);
    DaysBeforeYear(d.year) + DaysBeforeMonth(d.year, d.month) + d.day
  }

  /**
   * Whole days from `earlier` to `later`: Python's `(later - earlier).days`.
   * Its sign gives the calendar order of the two dates.
   */
  function DaysBetween(earlier: Date, later: Date): (days: int)
    requires IsValid(earlier) && IsValid(later)
    ensures days > 0 <==> Before(earlier, later)
    ensures days == 0 <==> earlier == later
    ensures days < 0 <==> Before(later, earlier)
  {
    OrdinalOrder(earlier, later);
    Ordinal(later) - Ordinal(earlier)
  }

  // ---------------------------------------------------------------------
  // Reference definitions: the calendar counted one year / month at a time.
  // ---------------------------------------------------------------------

  /** Sum of the lengths of the years 1 .. y-1. */
  function YearsSpan(y: int): int
    requires y >= 1
  {
    if y == 1 then 0 else YearsSpan(y - 1) + DaysInYear(y - 1)
  }

  /** Sum of the lengths of the months 1 .. m-1 of year `y`. */
  function MonthsSpan(y: int, m: int): int
    requires 1 <= m <= 12
  {
    if m == 1 then 0 else MonthsSpan(y, m - 1) + DaysInMonth(y, m - 1)
  }

  /** The day after `d` on the calendar. */
  function NextDay(d: Date): Date
    requires IsValid(d)
  {
    if d.day < DaysInMonth(d.year, d.month) then Date(d.year, d.month, d.day + 1)
    else if d.month < 12 then Date(d.year, d.month + 1, 1)
    else Date(d.year + 1, 1, 1)
  }

  /** Calendar order: by year, then month, then day. */
  predicate Before(a: Date, b: Date) {
    || a.year < b.year
    || (a.year == b.year && a.month < b.month)
    || (a.year == b.year && a.month == b.month && a.day < b.day)
  }

  /** Stepping `n - 1` to `n` raises `n / k` exactly when `k` divides `n`. */
  lemma DivStep(n: int)
    requires n >= 1
    ensures n / 4 - (n - 1) / 4 == if n % 4 == 0 then 1 else 0
    ensures n / 100 - (n - 1) / 100 == if n % 100 == 0 then 1 else 0
    ensures n / 400 - (n - 1) / 400 == if n % 400 == 0 then 1 else 0
  {
  }

  /** Every year divisible by 400 is divisible by 100, and every one divisible by 100 by 4. */
  lemma DivisorChain(y: int)
    ensures y % 400 == 0 ==> y % 100 == 0
    ensures y % 100 == 0 ==> y % 4 == 0
  {
    if y % 400 == 0 {
      var q, d, m := y / 400, y / 100, y % 100;
      assert y == 400 * q;
      assert y == 100 * d + m && 0 <= m < 100;
      assert 100 * (4 * q - d) == m;
    }
    if y % 100 == 0 {
      var q, d, m := y / 100, y / 4, y % 4;
      assert y == 100 * q;
      assert y == 4 * d + m && 0 <= m < 4;
      assert 4 * (25 * q - d) == m;
    }
  }

  /** The closed form grows by exactly one year length from one year to the next. */
  lemma DaysBeforeYearStep(y: int)
    requires y >= 1
    ensures DaysBeforeYear(y + 1) == DaysBeforeYear(y) + DaysInYear(y)
  {
    DivStep(y);
    DivisorChain(y);
    var leapDays := (if y % 4 == 0 then 1 else 0) - (if y % 100 == 0 then 1 else 0)
                  + (if y % 400 == 0 then 1 else 0);
    assert DaysBeforeYear(y + 1) - DaysBeforeYear(y) == 365 + leapDays;
    assert leapDays == if IsLeapYear(y) then 1 else 0;
  }

  /** Python's closed form counts exactly the days of the preceding years. */
  lemma {:induction false} DaysBeforeYearCountsYears(y: int)
    requires y >= 1
    ensures DaysBeforeYear(y) == YearsSpan(y)
  {
    if y > 1 {
      DaysBeforeYearCountsYears(y - 1);
      DaysBeforeYearStep(y - 1);
    }
  }

  /** The cumulative month table counts exactly the days of the preceding months. */
  lemma {:induction false} DaysBeforeMonthCountsMonths(y: int, m: int)
    requires 1 <= m <= 12
    ensures DaysBeforeMonth(y, m) == MonthsSpan(y, m)
  {
    if m > 1 {
      DaysBeforeMonthCountsMonths(y, m - 1);
    }
  }

  /** Consecutive calendar days have consecutive ordinals. */
  lemma OrdinalNextDay(d: Date)
    requires IsValid(d) && d != Date(MaxYear, 12, 31)
    ensures IsValid(NextDay(d))
    ensures Ordinal(NextDay(d)) == Ordinal(d) + 1
  {
    if d.day == DaysInMonth(d.year, d.month) {
      if d.month < 12 {
        DaysBeforeMonthCountsMonths(d.year, d.month);
        DaysBeforeMonthCountsMonths(d.year, d.month + 1);
      } else {
        DaysBeforeYearStep(d.year);
      }
    }
  }

  /** A month's last day never passes the year's end. */
  lemma MonthFitsInYear(y: int, m: int)
    requires 1 <= m <= 12
    ensures DaysBeforeMonth(y, m) + DaysInMonth(y, m) <= DaysInYear(y)
  {
  }

  /** Day numbers of the years are increasing. */
  lemma {:induction false} YearsIncrease(y1: int, y2: int)
    requires 1 <= y1 < y2
    ensures DaysBeforeYear(y1) + DaysInYear(y1) <= DaysBeforeYear(y2)
    decreases y2 - y1
  {
    DaysBeforeYearStep(y1);
    if y1 + 1 < y2 {
      YearsIncrease(y1 + 1, y2);
    }
  }

  /** Day numbers of the months of one year are increasing. */
  lemma {:induction false} MonthsIncrease(y: int, m1: int, m2: int)
    requires 1 <= m1 < m2 <= 12
    ensures DaysBeforeMonth(y, m1) + DaysInMonth(y, m1) <= DaysBeforeMonth(y, m2)
    decreases m2 - m1
  {
    DaysBeforeMonthCountsMonths(y, m1);
    DaysBeforeMonthCountsMonths(y, m1 + 1);
    if m1 + 1 < m2 {
      MonthsIncrease(y, m1 + 1, m2);
    }
  }

  /** The ordinal respects calendar order, strictly. */
  lemma OrdinalIncreasing(a: Date, b: Date)
    requires IsValid(a) && IsValid(b) && Before(a, b)
    ensures Ordinal(a) < Ordinal(b)
  {
    if a.year < b.year {
      MonthFitsInYear(a.year, a.month);
      YearsIncrease(a.year, b.year);
    } else if a.month < b.month {
      MonthsIncrease(a.year, a.month, b.month);
    }
  }

  /** The ordinal is an order embedding: smaller exactly for earlier dates, equal only for the same date. */
  lemma OrdinalOrder(a: Date, b: Date)
    requires IsValid(a) && IsValid(b)
    ensures Ordinal(a) < Ordinal(b) <==> Before(a, b)
    ensures Ordinal(a) == Ordinal(b) <==> a == b
  {
    if Before(a, b) {
      OrdinalIncreasing(a, b);
    } else if Before(b, a) {
      OrdinalIncreasing(b, a);
    }
  }

  // ---------------------------------------------------------------------
  // The `%Y-%m-%d` text form.
  // ---------------------------------------------------------------------

  /** `d` as four-digit year, two-digit month and two-digit day joined by '-'. */
  function FormatIsoDate(d: Date): (s: string)
    requires IsValid(d)
    ensures |s| == 10
  {
    PadDigits(d.year, 4) + "-" + PadDigits(d.month, 2) + "-" + PadDigits(d.day, 2)
  }

  /**
   * `strptime(s, "%Y-%m-%d")` restricted to zero-padded fields: the text
   * must be exactly `YYYY-MM-DD` and name a real calendar day.
   */
  function ParseIsoDate(s: string): (r: Option<Date>)
    ensures r.Some? ==> IsValid(r.value)
  {
    if |s| == 10 && s[4] == '-' && s[7] == '-'
       && AllDigits(s[0..4]) && AllDigits(s[5..7]) && AllDigits(s[8..10])
    then
      var d := Date(DigitsValue(s[0..4]), DigitsValue(s[5..7]), DigitsValue(s[8..10]));
      if IsValid(d) then Some(d) else None
    else
      None
  }

  /** Every calendar day survives formatting then parsing. */
  lemma ParseFormatIsoDate(d: Date)
    requires IsValid(d)
    ensures ParseIsoDate(FormatIsoDate(d)) == Some(d)
  {
    var y, m, dd := PadDigits(d.year, 4), PadDigits(d.month, 2), PadDigits(d.day, 2);
    var s := FormatIsoDate(d);
    assert s == y + "-" + m + "-" + dd;
    assert s[0..4] == y && s[5..7] == m && s[8..10] == dd;
    assert s[4] == '-' && s[7] == '-';
    assert Pow10(2) == 100 && Pow10(4) == 10000;
    PadDigitsRoundTrip(d.year, 4);
    PadDigitsRoundTrip(d.month, 2);
    PadDigitsRoundTrip(d.day, 2);
    assert Date(DigitsValue(y), DigitsValue(m), DigitsValue(dd)) == d;
  }

  /** Every accepted text is a valid day and is exactly the formatted form of it. */
  lemma FormatParseIsoDate(s: string)
    requires ParseIsoDate(s).Some?
    ensures IsValid(ParseIsoDate(s).value)
    ensures FormatIsoDate(ParseIsoDate(s).value) == s
  {
    DigitsValueRoundTrip(s[0..4]);
    DigitsValueRoundTrip(s[5..7]);
    DigitsValueRoundTrip(s[8..10]);
    assert s == s[0..4] + "-" + s[5..7] + "-" + s[8..10];
  }
}

=== FILE: enrichment.dfy ===
/**
 * The record validator and classifier `enrich_netflix_data`: each input row
 * passes three checks in a fixed order (mandatory fields, known plan,
 * parsable watch time and login date). A row that passes becomes a
 * three-field enriched record; a row that fails is written into the map of
 * invalid users under its user id, a later failure overwriting an earlier
 * one with the same id.
 */
module Enrichment {
  import opened Wrappers
  import opened Numerals
  import opened Calendar

  /** One input row as the CSV reader yields it: column name to cell text. */
  type Row = map<string, string>

  const UserId := "User_ID"
  const SubscriptionType := "Subscription_Type"
  const WatchTimeHours := "Watch_Time_Hours"
  const LastLogin := "Last_Login"

  /** The fields every row must carry, in the order a missing-field reason lists them. */
  const MandatoryFields: seq<string> := [UserId, SubscriptionType, WatchTimeHours, LastLogin]

  /** The invalid-map key of a row whose user id is absent or empty. */
  const UnknownId := "UnknownID"

  /** The fixed "current date" the login recency is measured against. */
  const Today := Date(2025, 3, 25)

  const InvalidPlanReason := "Invalid Subscription type"
  const InvalidFormatReason := "Invalid data format"

  datatype Status = Active | UnderUtilising

  /** The text written in the `Engagement_Status` column. */
  function StatusText(s: Status): string {
    match s
    case Active => "Active"
    case UnderUtilising => "Under-utilising"
  }

  /** An output row: `User_ID`, `Engagement_Status` and `Days_Inactive`. */
  datatype Enriched = Enriched(userId: string, status: Status, daysInactive: int)

  /** What one input row turns into: an enriched record or an invalid-map entry. */
  datatype Verdict = Accepted(record: Enriched) | Rejected(key: string, reason: string)

  /** The enriched rows in input order, and the invalid users with their reasons. */
  datatype Report = Report(enriched: seq<Enriched>, invalid: map<string, string>)

  /** A field counts only when it is there and not the empty string. */
  predicate Present(row: Row, field: string) {
    field in row && row[field] != ""
  }

  /**
   * The invalid-map key of a row: its user id when that is present and
   * non-empty, the `UnknownID` sentinel otherwise. A key is never empty.
   */
  function IdKey(row: Row): (key: string)
    ensures key != ""
    ensures Present(row, UserId) ==> key == row[UserId]
    ensures !Present(row, UserId) ==> key == UnknownId
  {
    if Present(row, UserId) then row[UserId] else UnknownId
  }

  /** The entries of `fields` the row lacks, keeping the order of `fields`. */
  function MissingFrom(fields: seq<string>, row: Row): (missing: seq<string>)
    ensures forall f :: f in missing <==> f in fields && !Present(row, f)
  {
    if fields == [] then []
    else (if Present(row, fields[0]) then [] else [fields[0]]) + MissingFrom(fields[1..], row)
  }

  /** The mandatory fields the row lacks; none exactly when all four are present. */
  function MissingFields(row: Row): (missing: seq<string>)
    ensures missing == [] <==> Complete(row)
  {
    var missing := MissingFrom(MandatoryFields, row);
    assert missing != [] ==> missing[0] in missing;
    assert !Complete(row) ==>
      UserId in missing || SubscriptionType in missing || WatchTimeHours in missing || LastLogin in missing;
    missing
  }

  predicate Complete(row: Row) {
    && Present(row, UserId)
    && Present(row, SubscriptionType)
    && Present(row, WatchTimeHours)
    && Present(row, LastLogin)
  }

  /** Total length of the strings in `parts`. */
  function TotalLength(parts: seq<string>): nat {
    if parts == [] then 0 else |parts[0]| + TotalLength(parts[1..])
  }

  /**
   * `sep.join(parts)`: the parts in order with one separator between each
   * neighbouring pair, so the first part leads and the length is the parts'
   * total plus one separator fewer than there are parts.
   */
  function Join(parts: seq<string>, sep: string): (joined: string)
    ensures parts != [] ==> parts[0] <= joined
    ensures parts != [] ==> |joined| == TotalLength(parts) + |sep| * (|parts| - 1)
    ensures parts == [] ==> joined == ""
  {
    if parts == [] then ""
    else if |parts| == 1 then parts[0]
    else parts[0] + sep + Join(parts[1..], sep)
  }

  function MissingReason(missing: seq<string>): string {
    "Missing: " + Join(missing, ", ")
  }

  /** The subscription plans the service offers. */
  predicate IsKnownPlan(plan: string) {
    plan in {"Premium", "Standard", "Basic"}
  }

  /** Monthly watch-hour threshold of a plan; 0 stands for "no such plan". */
  function PlanThreshold(plan: string): (threshold: nat)
    ensures threshold != 0 <==> IsKnownPlan(plan)
    ensures threshold <= 100
  {
    if plan == "Premium" then 100
    else if plan == "Standard" then 50
    else if plan == "Basic" then 25
    else 0
  }

  /** The status column: `Under-utilising` exactly when the watch time falls short of the threshold. */
  function Engagement(watch: real, threshold: nat): (status: Status)
    ensures StatusText(status) == "Under-utilising" <==> watch < threshold as real
    ensures StatusText(status) == "Active" <==> watch >= threshold as real
  {
    if watch < threshold as real then UnderUtilising else Active
  }

  /**
   * The three checks, in order, applied to one row. A rejection is filed
   * under the row's key with one of the three reasons; an accepted row was
   * complete and keeps its user id.
   */
  function Classify(row: Row): (v: Verdict)
    ensures v.Rejected? ==> v.key == IdKey(row)
    ensures v.Rejected? ==>
      || v.reason == MissingReason(MissingFields(row))
      || v.reason == InvalidPlanReason
      || v.reason == InvalidFormatReason
    ensures v.Accepted? ==> Complete(row) && v.record.userId == row[UserId]
  {
    var key := IdKey(row);
    var missing := MissingFields(row);
    if missing != [] then
      Rejected(key, MissingReason(missing))
    else
      var threshold := PlanThreshold(row[SubscriptionType]);
      if threshold == 0 then
        Rejected(key, InvalidPlanReason)
      else
        match (ParseDecimal(row[WatchTimeHours]), ParseIsoDate(row[LastLogin]))
        case (Some(watch), Some(login)) =>
          Accepted(Enriched(key, Engagement(watch, threshold), DaysBetween(login, Today)))
        case _ =>
          Rejected(key, InvalidFormatReason)
  }

  /** The report after one more row's verdict. */
  function Record(report: Report, v: Verdict): Report {
    match v
    case Accepted(e) => report.(enriched := report.enriched + [e])
    case Rejected(k, why) => report.(invalid := report.invalid[k := why])
  }

  /** The report of a sequence of verdicts, taken first to last. */
  function Collect(verdicts: seq<Verdict>): (report: Report)
    ensures |report.enriched| <= |verdicts|
    decreases |verdicts|
  {
    if verdicts == [] then Report([], map[])
    else Record(Collect(verdicts[..|verdicts| - 1]), verdicts[|verdicts| - 1])
  }

  /** The verdict of every row, in input order. */
  function Verdicts(data: seq<Row>): (vs: seq<Verdict>)
    ensures |vs| == |data|
    ensures forall i :: 0 <= i < |data| ==> vs[i] == Classify(data[i])
  {
    seq(|data|, i requires 0 <= i < |data| => Classify(data[i]))
  }

  /** The report of a whole input: at most one enriched record per row, nothing for no rows. */
  function Enrich(data: seq<Row>): (report: Report)
    ensures |report.enriched| <= |data|
    ensures data == [] ==> report == Report([], map[])
  {
    Collect(Verdicts(data))
  }

  /** One more row adds its own verdict to the report of the rows before it. */
  lemma EnrichStep(data: seq<Row>, i: nat)
    requires i < |data|
    ensures Enrich(data[..i + 1]) == Record(Enrich(data[..i]), Classify(data[i]))
  {
    assert Verdicts(data[..i + 1])[..i] == Verdicts(data[..i]);
  }

  /**
   * The body of the source's loop for one row: each failed check files the
   * row under its key and skips the rest; a row that passes all three is
   * enriched. It decides exactly as `Classify` does.
   */
  method CheckUser(user: Row) returns (verdict: Verdict)
    ensures verdict == Classify(user)
  {
    var userId := IdKey(user);
    var missing := MissingFields(user);
    if missing != [] {
      return Rejected(userId, MissingReason(missing));
    }
    var threshold := PlanThreshold(user[SubscriptionType]);
    if threshold == 0 {
      return Rejected(userId, InvalidPlanReason);
    }
    var watch := ParseDecimal(user[WatchTimeHours]);
    var login := ParseIsoDate(user[LastLogin]);
    if watch.None? || login.None? {
      return Rejected(userId, InvalidFormatReason);
    }
    var status := Engagement(watch.value, threshold);
    var days := DaysBetween(login.value, Today);
    return Accepted(Enriched(userId, status, days));
  }

  /**
   * The source's loop: checks each row in turn and returns the invalid map
   * beside the enriched list.
   */
  method EnrichNetflixData(data: seq<Row>) returns (enriched: seq<Enriched>, invalid: map<string, string>)
    ensures Report(enriched, invalid) == Enrich(data)
    ensures data == [] ==> enriched == [] && invalid == map[]
    ensures |enriched| <= |data|
  {
    if data == [] {
      return [], map[];
    }
    invalid := map[];
    enriched := [];
    for i := 0 to |data|
      invariant Report(enriched, invalid) == Enrich(data[..i])
      invariant |enriched| <= i
    {
      EnrichStep(data, i);
      var verdict := CheckUser(data[i]);
      match verdict {
        case Rejected(userId, reason) =>
          invalid := invalid[userId := reason];
        case Accepted(record) =>
          enriched := enriched + [record];
      }
    }
    assert data[..|data|] == data;
  }
}

=== FILE: enrichment_lemmas.dfy ===
/**
 * What `enrich_netflix_data` promises: the order of its three checks and
 * their reason strings, the threshold comparison, the shape and order of the
 * enriched list, and how the invalid map is keyed and overwritten.
 */
module EnrichmentLemmas {
  import opened Wrappers
  import opened Numerals
  import opened Calendar
  import opened Enrichment

  // ---------------------------------------------------------------------
  // Mandatory fields
  // ---------------------------------------------------------------------

  /** `a` can be obtained from `b` by deleting elements. */
  predicate IsSubsequence<T(==)>(a: seq<T>, b: seq<T>)
    decreases |b|
  {
    if a == [] then true
    else if b == [] then false
    else if a[0] == b[0] then IsSubsequence(a[1..], b[1..])
    else IsSubsequence(a, b[1..])
  }

  predicate Distinct<T(==)>(s: seq<T>) {
    forall i, j :: 0 <= i < j < |s| ==> s[i] != s[j]
  }

  lemma {:induction false} SubsequenceMembers<T>(a: seq<T>, b: seq<T>)
    requires IsSubsequence(a, b)
    ensures forall x :: x in a ==> x in b
    decreases |b|
  {
    if a != [] && b != [] {
      if a[0] == b[0] {
        SubsequenceMembers(a[1..], b[1..]);
        assert forall x :: x in a ==> x == a[0] || x in a[1..];
      } else {
        SubsequenceMembers(a, b[1..]);
      }
    }
  }

  lemma {:induction false} SubsequenceExtend<T>(a: seq<T>, h: T, b: seq<T>)
    requires IsSubsequence(a, b)
    ensures IsSubsequence(a, [h] + b)
    decreases |b|, 1
  {
    assert ([h] + b)[1..] == b;
    if a != [] && a[0] == h {
      assert b != [];
      if a[0] == b[0] {
        SubsequenceExtend(a[1..], b[0], b[1..]);
        assert [b[0]] + b[1..] == b;
      } else {
        SubsequenceTail(a, b);
      }
    }
  }

  lemma {:induction false} SubsequenceTail<T>(a: seq<T>, b: seq<T>)
    requires a != [] && IsSubsequence(a, b)
    ensures IsSubsequence(a[1..], b)
    decreases |b|, 0
  {
    assert b != [];
    if a[0] == b[0] {
      SubsequenceExtend(a[1..], b[0], b[1..]);
      assert [b[0]] + b[1..] == b;
    } else {
      SubsequenceTail(a, b[1..]);
      SubsequenceExtend(a[1..], b[0], b[1..]);
      assert [b[0]] + b[1..] == b;
    }
  }

  /** The missing fields are listed in the order the field list gives them. */
  lemma {:induction false} MissingFromInOrder(fields: seq<string>, row: Row)
    ensures IsSubsequence(MissingFrom(fields, row), fields)
  {
    if fields != [] {
      var rest := MissingFrom(fields[1..], row);
      MissingFromInOrder(fields[1..], row);
      if Present(row, fields[0]) {
        assert MissingFrom(fields, row) == rest;
        SubsequenceExtend(rest, fields[0], fields[1..]);
        assert [fields[0]] + fields[1..] == fields;
      } else {
        assert MissingFrom(fields, row) == [fields[0]] + rest;
        assert ([fields[0]] + rest)[1..] == rest;
      }
    }
  }

  /**
   * Over a list without repeats, a subsequence is fixed by its members:
   * listing the missing fields in list order leaves no choice.
   */
  lemma {:induction false} SubsequenceByMembers<T>(a: seq<T>, c: seq<T>, b: seq<T>)
    requires Distinct(b) && IsSubsequence(a, b) && IsSubsequence(c, b)
    requires forall x :: x in a <==> x in c
    ensures a == c
    decreases |b|
  {
    if b != [] {
      var h, t := b[0], b[1..];
      assert Distinct(t) by {
        forall i, j | 0 <= i < j < |t| ensures t[i] != t[j] {
          assert t[i] == b[i + 1] && t[j] == b[j + 1];
        }
      }
      assert h !in t by {
        forall i | 0 <= i < |t| ensures t[i] != h {
          assert t[i] == b[i + 1];
        }
      }
      if h in a {
        HeadIsFirst(a, b);
        HeadIsFirst(c, b);
        SubsequenceMembers(a[1..], t);
        SubsequenceMembers(c[1..], t);
        forall x
          ensures x in a[1..] <==> x in c[1..]
        {
          assert x in a <==> x == h || x in a[1..];
          assert x in c <==> x == h || x in c[1..];
        }
        SubsequenceByMembers(a[1..], c[1..], t);
        assert a == [h] + a[1..] && c == [h] + c[1..];
      } else {
        if a != [] { assert a[0] in a; }
        if c != [] { assert c[0] in c; }
        SubsequenceByMembers(a, c, t);
      }
    }
  }

  lemma HeadIsFirst<T>(a: seq<T>, b: seq<T>)
    requires b != [] && b[0] in a && b[0] !in b[1..] && IsSubsequence(a, b)
    ensures a != [] && a[0] == b[0] && IsSubsequence(a[1..], b[1..])
  {
    if a[0] != b[0] {
      SubsequenceMembers(a, b[1..]);
      assert false;
    }
  }

  /**
   * The missing-field list is exactly the absent-or-empty mandatory fields,
   * in the order `User_ID`, `Subscription_Type`, `Watch_Time_Hours`,
   * `Last_Login`: any list with those members in that order equals it.
   */
  lemma MissingFieldsCharacterised(row: Row, listed: seq<string>)
    requires IsSubsequence(listed, MandatoryFields)
    requires forall f :: f in listed <==> f in MandatoryFields && !Present(row, f)
    ensures MissingFields(row) == listed
  {
    MissingFromInOrder(MandatoryFields, row);
    assert Distinct(MandatoryFields);
    SubsequenceByMembers(MissingFields(row), listed, MandatoryFields);
  }

  /** Joining one more part at the end adds one separator and that part. */
  lemma {:induction false} JoinAppend(parts: seq<string>, p: string, sep: string)
    requires parts != []
    ensures Join(parts + [p], sep) == Join(parts, sep) + sep + p
    decreases |parts|
  {
    if |parts| > 1 {
      assert (parts + [p])[1..] == parts[1..] + [p];
      JoinAppend(parts[1..], p, sep);
    } else {
      assert (parts + [p])[1..] == [p];
    }
  }

  /** The three reason texts never coincide, so a reason names the check that failed. */
  lemma ReasonsDistinct(missing: seq<string>)
    ensures MissingReason(missing) != InvalidPlanReason
    ensures MissingReason(missing) != InvalidFormatReason
    ensures InvalidPlanReason != InvalidFormatReason
  {
    assert MissingReason(missing)[0] == 'M';
    assert InvalidPlanReason[8] != InvalidFormatReason[8];
  }

  // ---------------------------------------------------------------------
  // The three checks, in order
  // ---------------------------------------------------------------------

  /** Only the three plans have a threshold, and these are their thresholds. */
  lemma PlanThresholds(plan: string)
    ensures PlanThreshold(plan) != 0 <==> IsKnownPlan(plan)
    ensures PlanThreshold("Premium") == 100
    ensures PlanThreshold("Standard") == 50
    ensures PlanThreshold("Basic") == 25
  {
  }

  /** Every rejection is filed under the user id, or `UnknownID` when the id is missing. */
  lemma RejectionKey(row: Row)
    ensures Classify(row).Rejected? ==> Classify(row).key == (if Present(row, UserId) then row[UserId] else UnknownId)
    ensures !Present(row, UserId) ==>
      Classify(row).Rejected? && Classify(row).key == UnknownId
      && "Missing: User_ID" <= Classify(row).reason
  {
    if !Present(row, UserId) {
      var missing := MissingFields(row);
      MissingFromInOrder(MandatoryFields, row);
      assert UserId in missing;
      HeadIsFirst(missing, MandatoryFields);
    }
  }

  /** First check: a row lacking a mandatory field gets the missing-field reason and nothing else. */
  lemma MissingCheckFirst(row: Row)
    ensures Classify(row) == Rejected(IdKey(row), MissingReason(MissingFields(row)))
        <==> !Complete(row)
  {
    ReasonsDistinct(MissingFields(row));
  }

  /** Second check: a complete row with an unknown plan is rejected for its plan, before any parsing. */
  lemma PlanCheckSecond(row: Row)
    ensures Classify(row) == Rejected(IdKey(row), InvalidPlanReason)
        <==> Complete(row) && !IsKnownPlan(row[SubscriptionType])
  {
    ReasonsDistinct(MissingFields(row));
  }

  /** Third check: a complete row with a known plan and unparsable watch time or login is a format error. */
  lemma FormatCheckThird(row: Row)
    ensures Classify(row) == Rejected(IdKey(row), InvalidFormatReason)
        <==> && Complete(row)
             && IsKnownPlan(row[SubscriptionType])
             && (ParseDecimal(row[WatchTimeHours]).None? || ParseIsoDate(row[LastLogin]).None?)
  {
    ReasonsDistinct(MissingFields(row));
  }

  /** A row is enriched exactly when it passes all three checks. */
  lemma AcceptedExactly(row: Row)
    ensures Classify(row).Accepted?
        <==> && Complete(row)
             && IsKnownPlan(row[SubscriptionType])
             && ParseDecimal(row[WatchTimeHours]).Some?
             && ParseIsoDate(row[LastLogin]).Some?
  {
  }

  /**
   * An enriched record keeps the user id, reads `Under-utilising` exactly
   * when the watch time is strictly below the plan threshold and `Active`
   * otherwise, and counts the days from the login to the reference date.
   */
  lemma AcceptedRecord(row: Row)
    requires Classify(row).Accepted?
    ensures Complete(row) && ParseDecimal(row[WatchTimeHours]).Some? && ParseIsoDate(row[LastLogin]).Some?
    ensures Classify(row).record.userId == row[UserId]
    ensures StatusText(Classify(row).record.status) == "Under-utilising"
        <==> ParseDecimal(row[WatchTimeHours]).value < PlanThreshold(row[SubscriptionType]) as real
    ensures StatusText(Classify(row).record.status) == "Active"
        <==> ParseDecimal(row[WatchTimeHours]).value >= PlanThreshold(row[SubscriptionType]) as real
    ensures Classify(row).record.daysInactive == DaysBetween(ParseIsoDate(row[LastLogin]).value, Today)
  {
    var watch, login := ParseDecimal(row[WatchTimeHours]), ParseIsoDate(row[LastLogin]);
    assert watch.Some? && login.Some?;
    var threshold := PlanThreshold(row[SubscriptionType]);
    assert Classify(row) == Accepted(Enriched(row[UserId], Engagement(watch.value, threshold), DaysBetween(login.value, Today)));
  }

  /** More watch time never lowers the status, and a higher threshold never raises it. */
  lemma EngagementMonotone(w1: real, w2: real, t1: nat, t2: nat)
    requires w1 <= w2 && t2 <= t1
    ensures Engagement(w1, t1) == Active ==> Engagement(w2, t2) == Active
  {
  }

  /** Watch time exactly at the threshold is `Active`; one below is not. */
  lemma ThresholdIsActive(plan: string)
    requires IsKnownPlan(plan)
    ensures Engagement(PlanThreshold(plan) as real, PlanThreshold(plan)) == Active
    ensures Engagement(PlanThreshold(plan) as real - 1.0, PlanThreshold(plan)) == UnderUtilising
  {
  }

  // ---------------------------------------------------------------------
  // Days inactive
  // ---------------------------------------------------------------------

  /** The worked examples: 2025-01-01 is 83 days back, 2025-03-20 is 5, 2025-04-01 is 7 ahead. */
  lemma DaysInactiveExamples()
    ensures DaysBetween(Date(2025, 1, 1), Today) == 83
    ensures DaysBetween(Date(2025, 3, 20), Today) == 5
    ensures DaysBetween(Date(2025, 4, 1), Today) == -7
  {
  }

  /** Days inactive is negative exactly for logins after the reference date, zero only on it. */
  lemma DaysInactiveSign(login: Date)
    requires IsValid(login)
    ensures DaysBetween(login, Today) < 0 <==> Before(Today, login)
    ensures DaysBetween(login, Today) == 0 <==> login == Today
  {
  }

  // ---------------------------------------------------------------------
  // The whole input
  // ---------------------------------------------------------------------

  /** Positions of the accepted verdicts, in increasing order. */
  function AcceptedPositions(vs: seq<Verdict>): (ps: seq<nat>)
    ensures forall j :: 0 <= j < |ps| ==> ps[j] < |vs| && vs[ps[j]].Accepted?
    ensures forall j, k :: 0 <= j < k < |ps| ==> ps[j] < ps[k]
    ensures forall i :: 0 <= i < |vs| && vs[i].Accepted? ==> i in ps
    decreases |vs|
  {
    if vs == [] then []
    else
      var init := AcceptedPositions(vs[..|vs| - 1]);
      if vs[|vs| - 1].Accepted? then init + [|vs| - 1] else init
  }

  lemma {:induction false} CollectInOrder(vs: seq<Verdict>)
    ensures |Collect(vs).enriched| == |AcceptedPositions(vs)|
    ensures forall j :: 0 <= j < |AcceptedPositions(vs)| ==>
      Collect(vs).enriched[j] == vs[AcceptedPositions(vs)[j]].record
    decreases |vs|
  {
    if vs != [] {
      CollectInOrder(vs[..|vs| - 1]);
    }
  }

  predicate RejectsAs(v: Verdict, k: string) {
    v.Rejected? && v.key == k
  }

  lemma {:induction false} CollectKeys(vs: seq<Verdict>)
    ensures forall i :: 0 <= i < |vs| && vs[i].Rejected? ==> vs[i].key in Collect(vs).invalid
    ensures forall k :: k in Collect(vs).invalid ==>
      exists i :: 0 <= i < |vs| && vs[i] == Rejected(k, Collect(vs).invalid[k])
    decreases |vs|
  {
    if vs != [] {
      var init, last := vs[..|vs| - 1], vs[|vs| - 1];
      CollectKeys(init);
      var m := Collect(vs).invalid;
      forall k | k in m
        ensures exists i :: 0 <= i < |vs| && vs[i] == Rejected(k, m[k])
      {
        if RejectsAs(last, k) {
          assert vs[|vs| - 1] == Rejected(k, m[k]);
        } else {
          var i :| 0 <= i < |init| && init[i] == Rejected(k, Collect(init).invalid[k]);
          assert vs[i] == Rejected(k, m[k]);
        }
      }
    }
  }

  /** The verdict at `i` is the last rejection under its key. */
  predicate LastRejectionAt(vs: seq<Verdict>, i: int) {
    && 0 <= i < |vs|
    && vs[i].Rejected?
    && forall j :: i < j < |vs| ==> !RejectsAs(vs[j], vs[i].key)
  }

  lemma {:induction false} CollectLastWins(vs: seq<Verdict>)
    ensures forall i :: LastRejectionAt(vs, i) ==>
      vs[i].key in Collect(vs).invalid && Collect(vs).invalid[vs[i].key] == vs[i].reason
    decreases |vs|
  {
    if vs != [] {
      var init := vs[..|vs| - 1];
      CollectLastWins(init);
      forall i | LastRejectionAt(vs, i) && i < |vs| - 1
        ensures LastRejectionAt(init, i)
      {
        assert !RejectsAs(vs[|vs| - 1], vs[i].key);
      }
    }
  }

  lemma {:induction false} CollectSize(vs: seq<Verdict>)
    ensures |Collect(vs).invalid| + |Collect(vs).enriched| <= |vs|
    decreases |vs|
  {
    if vs != [] {
      CollectSize(vs[..|vs| - 1]);
    }
  }

  lemma {:induction false} CollectAppend(a: seq<Verdict>, b: seq<Verdict>)
    ensures Collect(a + b) == Report(Collect(a).enriched + Collect(b).enriched,
                                     Collect(a).invalid + Collect(b).invalid)
    decreases |b|
  {
    if b == [] {
      assert a + b == a;
    } else {
      var init, last := b[..|b| - 1], b[|b| - 1];
      assert (a + b)[..|a + b| - 1] == a + init;
      assert (a + b)[|a + b| - 1] == last;
      CollectAppend(a, init);
      match last
      case Accepted(e) =>
        assert Collect(a).enriched + Collect(init).enriched + [e]
            == Collect(a).enriched + (Collect(init).enriched + [e]);
      case Rejected(k, why) =>
        assert (Collect(a).invalid + Collect(init).invalid)[k := why]
            == Collect(a).invalid + Collect(init).invalid[k := why];
    }
  }

  /**
   * Each row yields at most one enriched record, and the enriched list holds
   * the records of the accepted rows in input order.
   */
  lemma EnrichedInInputOrder(data: seq<Row>)
    ensures |Enrich(data).enriched| == |AcceptedPositions(Verdicts(data))| <= |data|
    ensures forall j :: 0 <= j < |Enrich(data).enriched| ==>
      var p := AcceptedPositions(Verdicts(data))[j];
      p < |data| && Classify(data[p]).Accepted? && Enrich(data).enriched[j] == Classify(data[p]).record
    ensures forall j, k :: 0 <= j < k < |Enrich(data).enriched| ==>
      AcceptedPositions(Verdicts(data))[j] < AcceptedPositions(Verdicts(data))[k]
    ensures forall i :: 0 <= i < |data| && Classify(data[i]).Accepted? ==>
      i in AcceptedPositions(Verdicts(data))
  {
    CollectInOrder(Verdicts(data));
    CollectSize(Verdicts(data));
  }

  /** Every rejected row leaves its key in the invalid map, and every entry comes from such a row. */
  lemma InvalidKeys(data: seq<Row>)
    ensures forall i :: 0 <= i < |data| && Classify(data[i]).Rejected? ==>
      Classify(data[i]).key in Enrich(data).invalid
    ensures forall k :: k in Enrich(data).invalid ==>
      exists i :: 0 <= i < |data| && Classify(data[i]) == Rejected(k, Enrich(data).invalid[k])
  {
    var vs := Verdicts(data);
    CollectKeys(vs);
    forall k | k in Enrich(data).invalid
      ensures exists i :: 0 <= i < |data| && Classify(data[i]) == Rejected(k, Enrich(data).invalid[k])
    {
      var i :| 0 <= i < |vs| && vs[i] == Rejected(k, Collect(vs).invalid[k]);
      assert Classify(data[i]) == vs[i];
    }
  }

  /**
   * A later rejection under the same key overwrites an earlier one: the
   * entry holds the reason of the last row rejected under that key.
   */
  lemma LastRejectionWins(data: seq<Row>)
    ensures forall i ::
      (&& 0 <= i < |data|
       && Classify(data[i]).Rejected?
       && forall j :: i < j < |data| ==> !RejectsAs(Classify(data[j]), Classify(data[i]).key))
      ==>
      Classify(data[i]).key in Enrich(data).invalid
      && Enrich(data).invalid[Classify(data[i]).key] == Classify(data[i]).reason
  {
    var vs := Verdicts(data);
    CollectLastWins(vs);
    forall i | 0 <= i < |data| && Classify(data[i]).Rejected?
               && (forall j :: i < j < |data| ==> !RejectsAs(Classify(data[j]), Classify(data[i]).key))
      ensures LastRejectionAt(vs, i)
    {
    }
  }

  /** The invalid map has at most one entry per rejected row. */
  lemma InvalidSizeBound(data: seq<Row>)
    ensures |Enrich(data).invalid| <= |data| - |Enrich(data).enriched|
  {
    CollectSize(Verdicts(data));
  }

  /** Splitting the input into two batches and merging the reports gives the same report. */
  lemma EnrichAppend(a: seq<Row>, b: seq<Row>)
    ensures Enrich(a + b) == Report(Enrich(a).enriched + Enrich(b).enriched,
                                    Enrich(a).invalid + Enrich(b).invalid)
  {
    VerdictsAppend(a, b);
    CollectAppend(Verdicts(a), Verdicts(b));
  }

  lemma VerdictsAppend(a: seq<Row>, b: seq<Row>)
    ensures Verdicts(a + b) == Verdicts(a) + Verdicts(b)
  {
    var whole, parts := Verdicts(a + b), Verdicts(a) + Verdicts(b);
    forall i | 0 <= i < |whole|
      ensures whole[i] == parts[i]
    {
      if i < |a| {
        assert (a + b)[i] == a[i];
      } else {
        assert (a + b)[i] == b[i - |a|];
      }
    }
  }

  // ---------------------------------------------------------------------
  // Worked examples
  // ---------------------------------------------------------------------

  function Sample(id: string, plan: string, watch: string, login: string): Row {
    map[UserId := id, SubscriptionType := plan, WatchTimeHours := watch, LastLogin := login]
  }

  /** Reading `n` formatted in decimal, and a formatted date, as the examples need. */
  lemma ParsesOf(n: nat, text: string, d: Date, dateText: string)
    requires FormatNat(n) == text && IsValid(d) && FormatIsoDate(d) == dateText
    ensures ParseDecimal(text) == Some(n as real)
    ensures ParseIsoDate(dateText) == Some(d)
  {
    ParseFormatNat(n);
    ParseFormatIsoDate(d);
  }

  /** A sample row with an id, a known plan and parsable fields is enriched as the parsed values dictate. */
  lemma SampleAccepted(id: string, plan: string, watchText: string, loginText: string, watch: real, login: Date)
    requires id != "" && IsKnownPlan(plan)
    requires ParseDecimal(watchText) == Some(watch)
    requires ParseIsoDate(loginText) == Some(login)
    ensures Classify(Sample(id, plan, watchText, loginText))
         == Accepted(Enriched(id, Engagement(watch, PlanThreshold(plan)), DaysBetween(login, Today)))
  {
    var row := Sample(id, plan, watchText, loginText);
    assert row[UserId] == id && row[SubscriptionType] == plan;
    assert row[WatchTimeHours] == watchText && row[LastLogin] == loginText;
    assert Complete(row);
  }

  /** Premium, 150 hours, last login 2025-01-01: active, 83 days inactive. */
  lemma PremiumActiveExample()
    ensures Classify(Sample("U1", "Premium", "150", "2025-01-01"))
         == Accepted(Enriched("U1", Active, 83))
  {
    assert FormatNat(150) == "150";
    assert FormatIsoDate(Date(2025, 1, 1)) == "2025-01-01";
    ParsesOf(150, "150", Date(2025, 1, 1), "2025-01-01");
    DaysInactiveExamples();
    SampleAccepted("U1", "Premium", "150", "2025-01-01", 150.0, Date(2025, 1, 1));
  }

  /** Basic, 10 hours, last login 2025-03-20: under-utilising, 5 days inactive. */
  lemma BasicUnderUtilisingExample()
    ensures Classify(Sample("U2", "Basic", "10", "2025-03-20"))
         == Accepted(Enriched("U2", UnderUtilising, 5))
  {
    assert FormatNat(10) == "10";
    assert FormatIsoDate(Date(2025, 3, 20)) == "2025-03-20";
    ParsesOf(10, "10", Date(2025, 3, 20), "2025-03-20");
    DaysInactiveExamples();
    SampleAccepted("U2", "Basic", "10", "2025-03-20", 10.0, Date(2025, 3, 20));
  }

  /** A row without `Last_Login` is rejected with "Missing: Last_Login". */
  lemma MissingLoginExample()
    ensures Classify(map[UserId := "U3", SubscriptionType := "Basic", WatchTimeHours := "10"])
         == Rejected("U3", "Missing: Last_Login")
  {
    var row := map[UserId := "U3", SubscriptionType := "Basic", WatchTimeHours := "10"];
    assert IsSubsequence([LastLogin], [LastLogin]);
    SubsequenceExtend([LastLogin], WatchTimeHours, [LastLogin]);
    SubsequenceExtend([LastLogin], SubscriptionType, [WatchTimeHours, LastLogin]);
    SubsequenceExtend([LastLogin], UserId, [SubscriptionType, WatchTimeHours, LastLogin]);
    assert row[UserId] == "U3" && LastLogin !in row;
    MissingFieldsCharacterised(row, [LastLogin]);
    assert !Complete(row);
    MissingCheckFirst(row);
    assert IdKey(row) == "U3";
    assert MissingReason([LastLogin]) == "Missing: Last_Login";
  }

  lemma {:induction false} SubsequenceReflexive<T>(a: seq<T>)
    ensures IsSubsequence(a, a)
    decreases |a|
  {
    if a != [] {
      SubsequenceReflexive(a[1..]);
    }
  }

  lemma MandatoryFieldsJoined()
    ensures Join(MandatoryFields, ", ")
         == "User_ID" + ", " + "Subscription_Type" + ", " + "Watch_Time_Hours" + ", " + "Last_Login"
  {
    assert MandatoryFields[1..] == [SubscriptionType, WatchTimeHours, LastLogin];
    assert MandatoryFields[1..][1..] == [WatchTimeHours, LastLogin];
    assert MandatoryFields[1..][1..][1..] == [LastLogin];
    var j3 := Join([LastLogin], ", ");
    assert j3 == LastLogin;
    var j2 := Join([WatchTimeHours, LastLogin], ", ");
    assert j2 == WatchTimeHours + ", " + j3;
    var j1 := Join([SubscriptionType, WatchTimeHours, LastLogin], ", ");
    assert j1 == SubscriptionType + ", " + j2;
    assert Join(MandatoryFields, ", ") == UserId + ", " + j1;
  }

  /** A row with every field empty lists all four, in order, under `UnknownID`. */
  lemma AllMissingExample()
    ensures Classify(map[]) == Rejected(UnknownId,
      "Missing: " + ("User_ID" + ", " + "Subscription_Type" + ", " + "Watch_Time_Hours" + ", " + "Last_Login"))
  {
    var row: Row := map[];
    SubsequenceReflexive(MandatoryFields);
    MissingFieldsCharacterised(row, MandatoryFields);
    assert !Complete(row) && IdKey(row) == UnknownId;
    MissingCheckFirst(row);
    assert Classify(row) == Rejected(UnknownId, MissingReason(MandatoryFields));
    MandatoryFieldsJoined();
  }

  /** An unrecognised plan is rejected even when the other fields would not parse. */
  lemma UnknownPlanExample()
    ensures Classify(Sample("U4", "Gold", "abc", "yesterday"))
         == Rejected("U4", InvalidPlanReason)
  {
    var row := Sample("U4", "Gold", "abc", "yesterday");
    assert Complete(row);
  }

  /** Non-numeric watch time is a format error. */
  lemma BadWatchTimeExample()
    ensures Classify(Sample("U5", "Standard", "abc", "2025-03-20"))
         == Rejected("U5", InvalidFormatReason)
  {
    var row := Sample("U5", "Standard", "abc", "2025-03-20");
    assert Complete(row);
    assert row[WatchTimeHours] == "abc";
  }

  /** A row whose id is empty and whose other fields are all there is rejected for the id alone. */
  lemma IdlessRowExample()
    ensures Classify(Sample("", "Gold", "1", "2025-01-01")) == Rejected(UnknownId, "Missing: User_ID")
  {
    var row := Sample("", "Gold", "1", "2025-01-01");
    assert IsSubsequence([UserId], MandatoryFields);
    assert row[UserId] == "" && Complete(row) == false;
    MissingFieldsCharacterised(row, [UserId]);
    MissingCheckFirst(row);
    assert Join([UserId], ", ") == UserId;
  }

  /** Two rejections under one key leave a single entry, holding the second reason. */
  lemma CollectTwoRejections(first: Verdict, second: Verdict)
    requires first.Rejected? && second.Rejected? && first.key == second.key
    ensures Collect([first, second]).invalid == map[second.key := second.reason]
  {
    assert [first, second][..1] == [first];
    assert [first][..0] == [];
    assert Collect([first]) == Report([], map[first.key := first.reason]);
    assert Collect([first, second]) == Record(Collect([first]), second);
    assert map[first.key := first.reason][second.key := second.reason] == map[second.key := second.reason];
  }

  /** Two rejected rows without an id collapse into one `UnknownID` entry holding the later reason. */
  lemma UnknownIdOverwriteExample()
    ensures Enrich([map[], Sample("", "Gold", "1", "2025-01-01")]).invalid
         == map[UnknownId := "Missing: User_ID"]
  {
    var data := [map[], Sample("", "Gold", "1", "2025-01-01")];
    AllMissingExample();
    IdlessRowExample();
    var vs := Verdicts(data);
    assert vs == [vs[0], vs[1]];
    CollectTwoRejections(vs[0], vs[1]);
  }
}

=== FILE: numerals.dfy ===
/**
 * Decimal digit strings: the text-to-number conversions the enrichment step
 * relies on. Two of them are used: fixed-width digit groups read by the date
 * parser, and the plain decimal numbers read as watch time.
 */
module Numerals {
  import opened Wrappers

  predicate IsDigit(c: char) {
    '0' <= c <= '9'
  }

  predicate AllDigits(s: string) {
    forall i :: 0 <= i < |s| ==> IsDigit(s[i])
  }

  function DigitValue(c: char): (v: nat)
    requires IsDigit(c)
    ensures v < 10
  {
    (c as int - '0' as int) as nat
  }

  function DigitChar(n: nat): (c: char)
    requires n < 10
    ensures IsDigit(c) && DigitValue(c) == n
  {
    ('0' as int + n) as char
  }

  function Pow10(n: nat): (p: nat)
    ensures p >= 1
  {
    if n == 0 then 1 else 10 * Pow10(n - 1)
  }

  /** The number a string of decimal digits denotes (most significant first). */
  function DigitsValue(s: string): (v: nat)
    requires AllDigits(s)
    ensures v < Pow10(|s|)
  {
    if s == [] then 0 else DigitsValue(s[..|s| - 1]) * 10 + DigitValue(s[|s| - 1])
  }

  /** `n` written with exactly `w` digits, zero-padded on the left. */
  function PadDigits(n: nat, w: nat): (s: string)
    ensures |s| == w && AllDigits(s)
  {
    if w == 0 then [] else PadDigits(n / 10, w - 1) + [DigitChar(n % 10)]
  }

  /** `n` in decimal without leading zeros (`"0"` for zero). */
  function FormatNat(n: nat): (s: string)
    ensures |s| >= 1 && AllDigits(s)
  {
    if n < 10 then [DigitChar(n)] else FormatNat(n / 10) + [DigitChar(n % 10)]
  }

  lemma {:induction false} PadDigitsRoundTrip(n: nat, w: nat)
    requires n < Pow10(w)
    ensures DigitsValue(PadDigits(n, w)) == n
  {
    if w > 0 {
      var s := PadDigits(n, w);
      assert s[..|s| - 1] == PadDigits(n / 10, w - 1);
      PadDigitsRoundTrip(n / 10, w - 1);
    }
  }

  lemma {:induction false} DigitsValueRoundTrip(s: string)
    requires AllDigits(s)
    ensures PadDigits(DigitsValue(s), |s|) == s
  {
    if s != [] {
      var init, last := s[..|s| - 1], s[|s| - 1];
      DigitsValueRoundTrip(init);
      var x, d := DigitsValue(init), DigitValue(last);
      DivMod10(x, d);
      assert DigitChar(d) == last;
      calc {
        PadDigits(DigitsValue(s), |s|);
        PadDigits(x * 10 + d, |s|);
        PadDigits(x, |init|) + [DigitChar(d)];
        init + [last];
      }
      assert s == init + [last];
    }
  }

  lemma DivMod10(x: nat, d: nat)
    requires d < 10
    ensures (x * 10 + d) / 10 == x && (x * 10 + d) % 10 == d
  {
  }

  lemma {:induction false} FormatNatRoundTrip(n: nat)
    ensures DigitsValue(FormatNat(n)) == n
  {
    if n >= 10 {
      var s := FormatNat(n);
      assert s[..|s| - 1] == FormatNat(n / 10);
      FormatNatRoundTrip(n / 10);
    }
  }

  /** Position of the first `c` in `s`, or `|s|` when there is none. */
  function FindChar(s: string, c: char): (i: nat)
    ensures i <= |s|
    ensures forall j :: 0 <= j < i ==> s[j] != c
    ensures i < |s| ==> s[i] == c
  {
    if s == [] then 0 else if s[0] == c then 0 else 1 + FindChar(s[1..], c)
  }

  /**
   * An unsigned decimal: digits, optionally a '.' followed by digits, with
   * at least one digit overall ("12", "12.5", "12.", ".5").
   */
  function ParseUnsigned(s: string): (r: Option<real>)
    ensures r.Some? ==> |s| > 0
  {
    var i := FindChar(s, '.');
    var whole := s[..i];
    var frac := if i < |s| then s[i + 1..] else [];
    if AllDigits(whole) && AllDigits(frac) && |whole| + |frac| > 0 then
      Some(PointValue(whole, frac))
    else
      None
  }

  /** The value of the digit groups either side of a decimal point. */
  function PointValue(whole: string, frac: string): real
    requires AllDigits(whole) && AllDigits(frac)
  {
    DigitsValue(whole) as real + DigitsValue(frac) as real / Pow10(|frac|) as real
  }

  /**
   * Watch-time text as a number: an optional sign then an unsigned decimal.
   * Accepted text is never empty and begins with a sign, a digit or a point.
   */
  function ParseDecimal(s: string): (r: Option<real>)
    ensures r.Some? ==> |s| > 0 && IsNumeralChar(s[0])
  {
    if |s| > 0 && (s[0] == '+' || s[0] == '-') then
      match ParseUnsigned(s[1..])
      case Some(v) => Some(if s[0] == '-' then -v else v)
      case None => None
    else
      ParseUnsigned(s)
  }

  predicate IsNumeralChar(c: char) {
    IsDigit(c) || c == '.' || c == '+' || c == '-'
  }

  /** An unsigned decimal is never negative. */
  lemma UnsignedNonNegative(s: string)
    requires ParseUnsigned(s).Some?
    ensures ParseUnsigned(s).value >= 0.0
  {
  }

  /** The value of accepted text is negative only when the text begins with '-'. */
  lemma ParseDecimalSign(s: string)
    requires ParseDecimal(s).Some?
    ensures ParseDecimal(s).value < 0.0 ==> s[0] == '-'
    ensures s[0] == '-' ==> ParseDecimal(s).value <= 0.0
  {
    if s[0] == '+' || s[0] == '-' {
      UnsignedNonNegative(s[1..]);
    } else {
      UnsignedNonNegative(s);
    }
  }

  /** Only digits, a point and a sign can appear in accepted text; anything else is a format error. */
  lemma ParseDecimalAlphabet(s: string)
    requires ParseDecimal(s).Some?
    ensures forall k :: 0 <= k < |s| ==> IsNumeralChar(s[k])
  {
    if |s| > 0 && (s[0] == '+' || s[0] == '-') {
      var t := s[1..];
      UnsignedAlphabet(t);
      forall k | 0 < k < |s|
        ensures IsNumeralChar(s[k])
      {
        assert s[k] == t[k - 1];
      }
    } else {
      UnsignedAlphabet(s);
    }
  }

  lemma UnsignedAlphabet(t: string)
    requires ParseUnsigned(t).Some?
    ensures forall k :: 0 <= k < |t| ==> IsDigit(t[k]) || t[k] == '.'
  {
    var i := FindChar(t, '.');
    var whole := t[..i];
    var frac := if i < |t| then t[i + 1..] else [];
    assert AllDigits(whole) && AllDigits(frac);
    forall k | 0 <= k < |t|
      ensures IsDigit(t[k]) || t[k] == '.'
    {
      if k < i {
        assert t[k] == whole[k];
      } else if k > i {
        assert t[k] == frac[k - i - 1];
      }
    }
  }

  /** A natural number written by `FormatNat` reads back as itself. */
  lemma ParseFormatNat(n: nat)
    ensures ParseDecimal(FormatNat(n)) == Some(n as real)
  {
    var s := FormatNat(n);
    assert !IsDigit('.') && !IsDigit('-') && !IsDigit('+');
    assert FindChar(s, '.') == |s|;
    assert s[..|s|] == s;
    FormatNatRoundTrip(n);
  }

  /** A minus sign in front of a formatted natural negates it. */
  lemma ParseNegativeNat(n: nat)
    ensures ParseDecimal("-" + FormatNat(n)) == Some(-(n as real))
  {
    var s := "-" + FormatNat(n);
    assert s[1..] == FormatNat(n);
    ParseFormatNat(n);
  }

  /**
   * Fixed-point text `a.b` with `k` fractional digits reads back as
   * a + b / 10^k.
   */
  lemma ParseFixedPoint(a: nat, b: nat, k: nat)
    requires b < Pow10(k)
    ensures ParseDecimal(FormatNat(a) + "." + PadDigits(b, k))
         == Some(a as real + b as real / Pow10(k) as real)
  {
    FormatNatRoundTrip(a);
    PadDigitsRoundTrip(b, k);
    FixedPointSplit(FormatNat(a), PadDigits(b, k), a, b, k);
  }

  /** Digit groups of values `a` and `b` around a point read as a + b / 10^k. */
  lemma FixedPointSplit(whole: string, frac: string, a: nat, b: nat, k: nat)
    requires |whole| >= 1 && AllDigits(whole) && AllDigits(frac) && |frac| == k
    requires DigitsValue(whole) == a && DigitsValue(frac) == b
    ensures ParseDecimal(whole + "." + frac) == Some(a as real + b as real / Pow10(k) as real)
  {
    PointValueOf(whole, frac, a, b, k);
    PointSplit(whole, frac);
  }

  /** Digits, a point, digits, with no sign: the text reads as its point value. */
  lemma PointSplit(w: string, f: string)
    requires |w| >= 1 && AllDigits(w) && AllDigits(f)
    ensures ParseDecimal(w + "." + f) == Some(PointValue(w, f))
  {
    UnsignedPoint(w, f);
    assert (w + "." + f)[0] == w[0];
  }

  lemma PointValueOf(whole: string, frac: string, a: nat, b: nat, k: nat)
    requires AllDigits(whole) && AllDigits(frac) && |frac| == k
    requires DigitsValue(whole) == a && DigitsValue(frac) == b
    ensures PointValue(whole, frac) == a as real + b as real / Pow10(k) as real
  {
  }

  // ---------------------------------------------------------------------
  // Every plain decimal: an optional sign, digits, optionally a point and
  // digits, with at least one digit in all.
  // ---------------------------------------------------------------------

  /** The signs a plain decimal may begin with: none, '+' or '-'. */
  predicate IsSign(sign: string) {
    sign == "" || sign == "+" || sign == "-"
  }

  /** `v` under `sign`: negated for '-', unchanged otherwise. */
  function Signed(sign: string, v: real): real {
    if sign == "-" then -v else v
  }

  /** Digits, a point, digits (one side may be empty) read as the point value. */
  lemma UnsignedPoint(w: string, f: string)
    requires AllDigits(w) && AllDigits(f) && |w| + |f| > 0
    ensures ParseUnsigned(w + "." + f) == Some(PointValue(w, f))
  {
    var t := w + "." + f;
    forall j | 0 <= j < |w|
      ensures t[j] == w[j] && t[j] != '.'
    {
    }
    assert t[|w|] == '.';
    var i := FindChar(t, '.');
    assert i == |w|;
    assert t[..i] == w;
    assert t[i + 1..] == f;
  }

  /** Digits alone read as their value. */
  lemma UnsignedWhole(w: string)
    requires |w| > 0 && AllDigits(w)
    ensures ParseUnsigned(w) == Some(DigitsValue(w) as real)
  {
    assert !IsDigit('.');
    var i := FindChar(w, '.');
    assert i == |w|;
    assert w[..i] == w;
    assert DigitsValue([]) == 0 && Pow10(0) == 1;
    assert PointValue(w, []) == DigitsValue(w) as real;
  }

  /** A sign in front of unsigned text that starts with a digit or a point. */
  lemma SignedText(sign: string, t: string, v: real)
    requires IsSign(sign) && |t| > 0 && (IsDigit(t[0]) || t[0] == '.')
    requires ParseUnsigned(t) == Some(v)
    ensures ParseDecimal(sign + t) == Some(Signed(sign, v))
  {
    var s := sign + t;
    if sign == "" {
      assert s == t;
    } else {
      assert s[0] == sign[0] && s[1..] == t;
    }
  }

  /** `sign w.f` reads as the signed point value, whichever side of the point is empty. */
  lemma ParseSignedPoint(sign: string, w: string, f: string)
    requires IsSign(sign) && AllDigits(w) && AllDigits(f) && |w| + |f| > 0
    ensures ParseDecimal(sign + w + "." + f) == Some(Signed(sign, PointValue(w, f)))
  {
    var t := w + "." + f;
    UnsignedPoint(w, f);
    assert t[0] == if w == [] then '.' else w[0];
    assert sign + w + "." + f == sign + t;
    SignedText(sign, t, PointValue(w, f));
  }

  /** `sign w` with no point reads as the signed value of the digits. */
  lemma ParseSignedWhole(sign: string, w: string)
    requires IsSign(sign) && |w| > 0 && AllDigits(w)
    ensures ParseDecimal(sign + w) == Some(Signed(sign, DigitsValue(w) as real))
  {
    UnsignedWhole(w);
    SignedText(sign, w, DigitsValue(w) as real);
  }

  /** Accepted unsigned text is digits, or digits, a point and digits, with at least one digit. */
  lemma UnsignedPlain(t: string) returns (w: string, f: string, hasPoint: bool)
    requires ParseUnsigned(t).Some?
    ensures AllDigits(w) && AllDigits(f) && |w| + |f| > 0
    ensures if hasPoint then t == w + "." + f else t == w && f == []
    ensures ParseUnsigned(t).value == PointValue(w, f)
  {
    var i := FindChar(t, '.');
    w := t[..i];
    hasPoint := i < |t|;
    f := if hasPoint then t[i + 1..] else [];
    assert ParseUnsigned(t) == Some(PointValue(w, f));
    if hasPoint {
      assert t == w + [t[i]] + f;
    } else {
      assert t == w;
    }
  }

  /**
   * The converse of `ParseSignedPoint` and `ParseSignedWhole`: accepted text
   * is exactly a plain decimal, an optional sign then digits with an
   * optional point, and its value is the signed point value. Anything else,
   * `1-2`, `1..2`, `+` or `.` among them, is a format error.
   */
  lemma ParseDecimalPlain(s: string) returns (sign: string, w: string, f: string, hasPoint: bool)
    requires ParseDecimal(s).Some?
    ensures IsSign(sign) && AllDigits(w) && AllDigits(f) && |w| + |f| > 0
    ensures if hasPoint then s == sign + w + "." + f else s == sign + w && f == []
    ensures ParseDecimal(s).value == Signed(sign, PointValue(w, f))
  {
    var t;
    sign, t := SignSplit(s);
    w, f, hasPoint := UnsignedPlain(t);
    if hasPoint {
      SignedPointText(sign, w, f);
    }
  }

  /** Accepted text is a sign, possibly empty, in front of accepted unsigned text. */
  lemma SignSplit(s: string) returns (sign: string, t: string)
    requires ParseDecimal(s).Some?
    ensures IsSign(sign) && s == sign + t && ParseUnsigned(t).Some?
    ensures ParseDecimal(s).value == Signed(sign, ParseUnsigned(t).value)
  {
    if s[0] == '+' || s[0] == '-' {
      sign, t := [s[0]], s[1..];
    } else {
      sign, t := "", s;
    }
  }

  lemma SignedPointText(sign: string, w: string, f: string)
    ensures sign + w + "." + f == sign + (w + "." + f)
  {
  }
}

=== FILE: wrappers.dfy ===
/** The optional-value datatype used for every parse that can fail. */
module Wrappers {

  /** Either no value (the parse raised `ValueError`) or the parsed value. */
  datatype Option<+T> = None | Some(value: T)
}
